=== FILE: README.md ===
# peleka-backend core, modelled in Dafny

This project models the small, self-contained rules of the peleka delivery
backend (a Django application). It covers:

- the revenue-split rates applied to a completed job's price, and the helper
  that turns a stored price text into a decimal (`wallet/signals.py`);
- the two wallet models: one keeps an audit log of credits and debits
  (`wallets/models.py`), the other keeps one wallet per user with no log
  (`wallet/models.py`);
- the ledger rows and their history rows, with their defaults and the history
  label (`transactions/models.py`);
- the rider record: unique phone number, code and national id, the photo
  storage path (`system/models.py`), and the generated rider code
  (`system/serializers.py`);
- one-time-password generation (`account/utils.py`);
- granting, revoking and listing a user's permissions (`system/views.py`).

Amounts are Dafny `real`s. These are exact, as Python's `Decimal` is for the
values involved. Randomness is an input: `draw(i)` is the i-th result of
`random.randint(0, 9)`. Django's `slugify` is a function parameter. The
database tables are sequences or maps.

Modules: `Basics` (option/result types, digits, `str()` of naturals),
`Amounts`, `AuditedWallets`, `UserWallets`, `Ledger`, `Riders`, `RiderCodes`,
`Otp`, `Permissions`. There is one file per module.

Three things the code does and does not do:

- `Split` keeps exact values. No rounding appears in the lines of
  `wallet/signals.py` that this model covers; the code that applies the rates
  to a price is not part of this model.
- The ledger in `transactions/models.py` has no uniqueness constraint on the
  rider/commissioner/boss triple, so the model has none.
- `Wallet.credit` and `Wallet.debit` in `wallet/models.py` write no log.

## Model

| member | source | states |
|---|---|---|
| `Amounts.RatesPartitionUnity` | wallet/signals.py:8-11 | each rate lies in [0, 1]; 0.90 + 0.03 + 0.07 = 1 and 0.90 + 0.10 = 1; 0.10 = 0.07 + 0.03 |
| `Amounts.Split` | wallet/signals.py:8-11 | the rider gets 0.90 of the price; with a commissioner, the commissioner gets 0.03 and the boss 0.07; without one, the commissioner gets 0 and the boss 0.10; the shares add up to the price exactly; for a non-negative price each share lies between 0 and the price (for a negative price, between the price and 0) |
| `Amounts.SplitOfThousand` | wallet/signals.py:8-11 | a price of 1000 splits into 900 / 30 / 70 with a commissioner and 900 / 0 / 100 without one |
| `Amounts.CommissionerCutComesFromBoss` | wallet/signals.py:8-11 | the rider share is the same in both cases; without a commissioner the boss share is the with-commissioner boss share plus the commissioner share |
| `Amounts.Scan` | wallet/signals.py:19 | a text accepted as `[sign] digits [. digits]` (at least one digit) gives a valid literal whose rendering is that very text |
| `Amounts.ScanRender` | wallet/signals.py:19 | every valid literal is read back unchanged from its own text, so the accepted texts are exactly the renderings of valid literals |
| `Amounts.GetAmountFromStr` | wallet/signals.py:13-21 | `None`, and any text the decimal reader rejects, give 0.00; the function is total, so it never raises |
| `Amounts.AmountOfLiteral` | wallet/signals.py:18-19 | a well-formed decimal text gives exactly the value it denotes, sign included |
| `Amounts.AmountOfShowCents` | wallet/signals.py:18-19 | the two-place text of any amount in cents, negative ones included (e.g. `-12.34`), parses back to exactly that amount: no sign clamping |
| `Amounts.RatesAreDecimalLiterals` | wallet/signals.py:8-11 | the four rate constants equal the parse of the literals "0.90", "0.03", "0.07" and "0.10", and "0.00" parses to 0 |
| `Amounts.MalformedAmountsAreZero` | wallet/signals.py:20-21 | "", ".", "-", "1.2.3" and "abc" all give 0.00 |
| `AuditedWallets.Open` | wallets/models.py:11-17 | a new wallet has the given owner and type and the default balance 0.00 |
| `AuditedWallets.CreditWallet` | wallets/models.py:24-33 | the balance grows by the amount; the wallet's id, owner and type are unchanged; exactly one row (this wallet, amount, 'credit', description) is appended and earlier rows are kept; the audit invariant is preserved |
| `AuditedWallets.DebitWallet` | wallets/models.py:35-44 | the balance shrinks by the amount; the appended 'debit' row records the amount itself, not its negation; nothing else changes; the audit invariant is preserved |
| `AuditedWallets.CallsLeaveOtherWalletsAlone` | wallets/models.py:24-44 | the row a credit or debit appends does not change any other wallet's logged total |
| `AuditedWallets.DebitCanOverdraw` | wallets/models.py:35-38 | there is no sufficient-funds check: debiting more than the balance leaves it negative |
| `AuditedWallets.CreditThenDebitRestoresBalance` | wallets/models.py:24-44 | a credit then a debit of the same amount restores the wallet, and the log grows by exactly those two rows |
| `AuditedWallets.RunKeepsBalanced` | wallets/models.py:11-44 | after any sequence of credits and debits on a new wallet, the balance is 0.00 plus the credits minus the debits logged for it since it was opened; its id, owner and type never change; earlier log rows are kept |
| `AuditedWallets.FreshWalletBalance` | wallets/models.py:17-44 | on a wallet opened with an empty log, the balance is the sum of logged credit amounts minus the sum of logged debit amounts |
| `UserWallets.Credit` | wallet/models.py:22-25 | the balance grows by exactly the amount; user and type are unchanged |
| `UserWallets.Debit` | wallet/models.py:27-30 | the balance shrinks by exactly the amount, with no lower bound; user and type are unchanged |
| `UserWallets.CreditDebitCancel` | wallet/models.py:22-30 | a credit and a debit of the same amount cancel, in either order |
| `UserWallets.CreditsCompose` | wallet/models.py:22-25 | two credits equal one credit of their sum |
| `UserWallets.CreateWallet` | wallet/models.py:11-18 | creating a wallet succeeds exactly when the user has none; the new row starts at 0.00; the one-wallet-per-user constraint keeps holding |
| `UserWallets.WalletOf` | wallet/models.py:12-16 | `user.wallet` finds a wallet row of that user, or reports none exactly when the user has no wallet |
| `UserWallets.WalletOfUnique` | wallet/models.py:12-16 | under the one-to-one constraint the wallet found is the only wallet of that user |
| `Ledger.MoneyFieldBound` | transactions/models.py:23-25 | a value that fits 10 digits with 2 after the point is below 10^8 in absolute value |
| `Ledger.NewTransaction` | transactions/models.py:5-25 | a new ledger row links the given rider, optional commissioner and boss, with all three totals 0, and these fit the money field |
| `Ledger.NewHistory` | transactions/models.py:32-56 | a history row belongs to the given ledger row; the rider and boss amounts are as supplied; the commissioner amount defaults to 0 |
| `Ledger.Referenced` | transactions/models.py:59-65 | the label names the delivery request when there is one, otherwise the booking when there is one, otherwise nothing |
| `Ledger.Label` | transactions/models.py:59-65 | every label starts with "History for Transaction ", and ends in ')' exactly when it names a delivery request or a booking |
| `Ledger.LabelIdentifies` | transactions/models.py:59-65 | two history rows have the same label if and only if they belong to the same ledger row and name the same delivery request, the same booking, or neither: the label shows the ledger id and the selected reference and nothing else |
| `Riders.Insert` | system/models.py:12-17 | inserting a rider is refused exactly when its phone number, code or nid (when present) is already used, so each stays unique among riders |
| `Riders.CodesInUse` | system/serializers.py:31 | a code is in use exactly when some rider row carries it |
| `Riders.SplitExt` | system/models.py:9 | `os.path.splitext`: root and extension concatenate to the path; the extension is empty or a dot followed by no dot or slash; it is non-empty exactly when the last path component has a '.' after some character other than '.'; when it is non-empty, the root's last component holds a character other than '.' (leading dots do not start an extension) |
| `Riders.SplitExtUnique` | system/models.py:9 | any split of a path meeting the properties of `SplitExt` is the one `SplitExt` returns, so those properties fully determine the extension |
| `Riders.SplitExtExamples` | system/models.py:9 | "photo.jpg" gives ".jpg", "archive.tar.gz" gives ".gz", and ".bashrc" and "README" give no extension |
| `Riders.RiderImagePath` | system/models.py:8-10 | the path starts with "riders/rider_" and ends with the upload's extension; between them come slugify(name), the phone number and the code, in that order, joined by '_'; a missing value prints as "None" |
| `Riders.ImagePathIgnoresBaseName` | system/models.py:9-10 | two uploads with the same extension get the same path: the base name is discarded |
| `RiderCodes.Words` | system/serializers.py:23 | `name.split()` yields non-empty words that contain no whitespace |
| `RiderCodes.FirstsOfWords` | system/serializers.py:23 | the first letters of the words are exactly the non-whitespace characters at the start of the name or right after whitespace |
| `RiderCodes.Initials` | system/serializers.py:23 | there are at most two initials, one per word up to two |
| `RiderCodes.InitialsAreWordStarts` | system/serializers.py:23 | the initials are the first two word-starting characters, upper-cased |
| `RiderCodes.BlankNameHasNoInitials` | system/serializers.py:23 | a name with no words ("" or only whitespace) has empty initials, so its code is just the 8 digits |
| `RiderCodes.RandomNumber` | system/serializers.py:27 | each attempt draws exactly 8 decimal digits, and the i-th digit of attempt k is the value of draw 8k + i, so the digits are the random draws themselves in order |
| `RiderCodes.GenerateUniqueCode` | system/serializers.py:17-32 | the code returned is not in use; it is the initials followed by 8 digits, at most 10 characters; it is the first candidate of the stream not in use; none is returned only when every candidate drawn was taken |
| `RiderCodes.NameForCodeAsWritten` | system/serializers.py:39 | as written, a missing name gives '' but an explicit null name fails (`None.split()`) |
| `RiderCodes.NameForCode` | system/serializers.py:39 | as intended, a missing or null name is the empty name, with no initials |
| `RiderCodes.NullNameDiscrepancy` | system/serializers.py:39-40 | the two readings differ only on a null name: failure as written, empty initials as intended |
| `RiderCodes.Create` | system/serializers.py:34-43 | any supplied code is replaced by the first generated candidate not in use (initials then draws 8k to 8k+7 of the first free attempt k); the other fields are stored as given; the row is appended and uniqueness keeps holding; codes run out exactly when every candidate drawn is taken; otherwise a duplicate error occurs exactly when the phone number or nid clashes; a null name never fails |
| `RiderCodes.CreateAsWritten` | system/serializers.py:34-43 | as written, creation fails with `NameNotText` exactly when the name is null; for any other name the outcomes are those of `Create`: the same stored row, the same first free candidate as code, the same exhausted and duplicate cases |
| `Otp.GenerateOtp` | account/utils.py:9-11 | the password has exactly the requested length, or none for a negative length; every character is a digit, and it is the digit drawn for that position |
| `Otp.GenerateDefaultOtp` | account/utils.py:9 | with no length given the password has 7 digits, the i-th being draw i |
| `Otp.OtpDeterminesDraws` | account/utils.py:11 | equal passwords come from equal draws: each position records its draw |
| `Otp.EmptyOtp` | account/utils.py:11 | a zero or negative length gives the empty string |
| `Otp.ZeroDrawsGiveZeros` | account/utils.py:11 | leading zeros are kept: all-zero draws give a password of '0's |
| `Permissions.GrantAll` | system/views.py:53-62 | the final set is the old set plus every requested codename that names an existing permission; there is one status per codename, in order: not found when it does not exist, "already has" when it was held before or granted by an earlier entry of the list, assigned otherwise |
| `Permissions.RevokeAll` | system/views.py:87-96 | the final set is the old set minus every existing requested permission; one status per codename: not found, removed when still held at that point, "does not have" otherwise |
| `Permissions.GrantIsIdempotent` | system/views.py:56-60 | repeating a grant leaves the set unchanged and reports every existing codename as already held |
| `Permissions.GrantThenRevoke` | system/views.py:53-96 | revoking what was just granted gives the old set without the requested permissions |
| `Permissions.RevokeRemovesRequested` | system/views.py:86-94 | when the user holds only existing permissions, revoking removes exactly the requested codenames |
| `Permissions.AssignPermissions` | system/views.py:37-64 | a caller who is not staff, or who is neither superuser nor holder of `auth.change_user`, is denied and nothing changes; a missing or unknown user gives not-found and nothing changes; results come back exactly when the caller is allowed and the user exists, and then only the target user's permission set changes, to the old set plus the requested existing permissions, with one entry per codename in request order carrying the grant status; well-formedness is kept |
| `Permissions.RemovePermissions` | system/views.py:72-98 | the same guards; results come back exactly when the caller is allowed and the user exists, and then only the target user's set changes, to the old set minus the requested existing permissions, with one entry per codename in order carrying the revoke status |
| `Permissions.MessageDeterminesStatus` | system/views.py:57-96 | the status texts of the responses are pairwise different, so an entry's text tells its status; the "already has" text names its codename, so equal texts mean the same codename |
| `Permissions.EffectivePermissions` | system/views.py:117 | a permission is listed exactly when the user holds it directly or through one of their groups |
| `Permissions.Listing` | system/views.py:117-123 | the listing has the same elements as the set, each once |
| `Permissions.UserPermissions` | system/views.py:106-128 | a caller who is not authenticated, or is neither superuser nor holder of `auth.view_permission`, is denied; an unknown user gives not-found; otherwise the result is the distinct union of direct and group permissions |

## Findings

| source | as written | input that shows it | evidently intended | confidence | as-written member | corrected member |
|---|---|---|---|---|---|---|
| system/serializers.py:39-40 | `validated_data.get('name', '')` returns `None` when the request sends an explicit null name; the column is nullable, so the serializer accepts null; `generate_unique_code` then calls `None.split()` and raises | creating a rider with `{"name": null, "phone_number": "0780000000"}` | a null name is treated like a missing one, giving a code of 8 digits and no initials | medium; not executed | `RiderCodes.NameForCodeAsWritten` | `RiderCodes.NameForCode` |

`RiderCodes.CreateAsWritten` shows the failure at the level of `create`.
`RiderCodes.Create` is the corrected operation, built on `NameForCode`.

## Left out

- `Amounts.Scan`: covers only `[sign] digits [. digits]`. Python's `Decimal` also accepts exponents, NaN and Infinity, surrounding whitespace, underscores and non-ASCII digits. Those texts give 0.00 here rather than their value.
- `Amounts.Split`: keeps exact values, by choice. The code that applies the rates to a price is not part of this model, and no rounding appears in the lines of `wallet/signals.py` it covers (the constants and the parser). Rounding to two places happens when the ORM saves a decimal field.
- Quantisation and overflow of decimal fields on save: these are ORM behaviour. `Ledger.FitsMoneyField` states the field format, but saving is not modelled.
- The settlement handler, the ledger get-or-create and increment, the request lifecycle, rider assignment and availability checks: none of this code is part of this model. `wallet/signals.py` is modelled only up to its constants and parser.
- `WalletTransaction` in `wallets/models.py`: its class definition is not among the lines of that file this model covers. The audit log holds rows built from the four fields passed at lines 28-33 and 39-44, the fields wallets/admin.py:12-17 lists; timestamps and ids of those rows are not modelled.
- Wallet timestamps, `__str__` of wallets and ledger rows: no behaviour.
- `wallet_type` is an enumeration in both wallet models. Django validates `choices` in forms and serializers, not on `save()`.
- `RiderCodes.GenerateUniqueCode`: the source retries forever. The model draws at most `attempts` candidates and reports `None` when all of them are taken.
- `RiderCodes.UpperChar`: only ASCII letters are upper-cased. Python's full Unicode case mapping (for example 'ß' becoming "SS") is not modelled.
- The check-then-insert race between the code-uniqueness query and the insert, and all database atomicity and concurrency: execution is sequential.
- Image resizing by `ProcessedImageField`: a third-party processor.
- `slugify`: taken as an arbitrary function of the name.
- `send_email` and `send_sms` in `account/utils.py`: network I/O.
- `has_perm`: the caller's granted permission strings are an input. Django's backend lookup and the inactive-user rule are not modelled.
- Several permissions sharing one codename (the `Permission.objects.get` multiple-match error): codenames are unique keys.
- A `user_id` that is not a number (for example `"abc"`): `User.objects.get(id=...)` at system/views.py:48 and 82 raises ValueError, which the views do not catch. The model takes the user id as an optional natural number, so this server error is not modelled.
- A `permission_codename` value that is not a list: Python would iterate over it, for example over a string's characters. The model takes a list of codenames.
- `PermissionListView`, `UserListView` and `UserDetailView` in `system/views.py`: plain list, retrieve, update and delete wrappers.
- Response HTTP status codes: the model returns typed outcomes instead.
- Login, logout, registration, the account and web serializers, URL configurations, admin registrations, migrations and list views: routing and ORM plumbing outside this model.

=== FILE: amounts.dfy ===
/** The revenue-split rates of a completed job and the text-to-decimal
    helper used on stored prices (wallet/signals.py). Amounts are exact
    `real`s, as Python's `Decimal` is exact for these values. */
module Amounts {
  import opened Basics

  const RiderShare: real := 0.90
  const CommissionerShare: real := 0.03
  const BossShareWithCommissioner: real := 0.07
  const BossShareNoCommissioner: real := 0.10

  /** The three parts of a price. */
  datatype Shares = Shares(rider: real, commissioner: real, boss: real)

  /** Every rate is a fraction of the price, and each case partitions it. */
  lemma RatesPartitionUnity()
    ensures 0.0 <= RiderShare <= 1.0 && 0.0 <= CommissionerShare <= 1.0
    ensures 0.0 <= BossShareWithCommissioner <= 1.0 && 0.0 <= BossShareNoCommissioner <= 1.0
    ensures RiderShare + CommissionerShare + BossShareWithCommissioner == 1.0
    ensures RiderShare + BossShareNoCommissioner == 1.0
    ensures BossShareNoCommissioner == BossShareWithCommissioner + CommissionerShare
  {
  }

  /** The four rates applied to a price, with or without a commissioner.
      Nothing is lost or created: the shares add up to the price exactly. */
  function Split(price: real, hasCommissioner: bool): (s: Shares)
    ensures s.rider == RiderShare * price
    ensures hasCommissioner ==> s.commissioner == CommissionerShare * price && s.boss == BossShareWithCommissioner * price
    ensures !hasCommissioner ==> s.boss == BossShareNoCommissioner * price
    ensures s.rider + s.commissioner + s.boss == price
    ensures !hasCommissioner ==> s.commissioner == 0.0
    ensures 0.0 <= price ==> 0.0 <= s.rider <= price && 0.0 <= s.commissioner <= price && 0.0 <= s.boss <= price
    ensures price <= 0.0 ==> price <= s.rider <= 0.0 && price <= s.commissioner <= 0.0 && price <= s.boss <= 0.0
  {
    if hasCommissioner then
      Shares(RiderShare * price, CommissionerShare * price, BossShareWithCommissioner * price)
    else
      Shares(RiderShare * price, 0.0, BossShareNoCommissioner * price)
  }

  /** The rider's part does not depend on the commissioner; without one, the
      boss takes exactly what the commissioner would have taken. */
  lemma CommissionerCutComesFromBoss(price: real)
    ensures Split(price, false).rider == Split(price, true).rider
    ensures Split(price, false).boss == Split(price, true).boss + Split(price, true).commissioner
  {
  }

  /** A job of 1000: 900 / 30 / 70 with a commissioner, 900 / 0 / 100
      without one. */
  lemma SplitOfThousand()
    ensures Split(1000.0, true) == Shares(900.0, 30.0, 70.0)
    ensures Split(1000.0, false) == Shares(900.0, 0.0, 100.0)
  {
  }

  // ---------------------------------------------------------------------
  // Decimal literals: `[sign] digits [. digits]`, at least one digit.

  datatype Sign = Unsigned | Plus | Minus

  /** The parts of a decimal literal as written. `point` records whether a
      '.' was written, so that "5." and "5" are different texts. */
  datatype Literal = Literal(sign: Sign, whole: string, point: bool, frac: string)

  predicate ValidLiteral(l: Literal) {
    && AllDigits(l.whole)
    && AllDigits(l.frac)
    && |l.whole| + |l.frac| > 0
    && (!l.point ==> l.frac == "")
  }

  function SignText(sign: Sign): string {
    match sign
    case Unsigned => ""
    case Plus => "+"
    case Minus => "-"
  }

  /** The text of a literal after its sign. */
  function BodyText(whole: string, point: bool, frac: string): string {
    whole + (if point then "." + frac else "")
  }

  /** The text of a literal. */
  function Render(l: Literal): string {
    SignText(l.sign) + BodyText(l.whole, l.point, l.frac)
  }

  /** Index of the first occurrence of c in s, or -1. */
  function IndexOf(s: string, c: char): (r: int)
    ensures -1 <= r < |s|
    ensures r == -1 <==> c !in s
    ensures r >= 0 ==> s[r] == c && forall j :: 0 <= j < r ==> s[j] != c
  {
    if |s| == 0 then -1
    else if s[0] == c then 0
    else var k := IndexOf(s[1..], c); if k == -1 then -1 else k + 1
  }

  /** Splits off a leading '+' or '-'. */
  function ScanSign(s: string): (r: (Sign, string))
    ensures SignText(r.0) + r.1 == s
    ensures r.0 == Unsigned ==> |s| == 0 || (s[0] != '+' && s[0] != '-')
  {
    if |s| > 0 && s[0] == '+' then (Plus, s[1..])
    else if |s| > 0 && s[0] == '-' then (Minus, s[1..])
    else (Unsigned, s)
  }

  /** Reads `digits [. digits]` with at least one digit. */
  function ScanBody(body: string): (r: Option<(string, bool, string)>)
    ensures r.Some? ==> var (w, p, f) := r.value;
      AllDigits(w) && AllDigits(f) && |w| + |f| > 0 && (!p ==> f == "") && BodyText(w, p, f) == body
  {
    var k := IndexOf(body, '.');
    if k < 0 then
      if |body| > 0 && AllDigits(body) then Some((body, false, "")) else None
    else
      var whole := body[..k];
      var frac := body[k + 1..];
      assert body == whole + "." + frac;
      if AllDigits(whole) && AllDigits(frac) && |whole| + |frac| > 0
      then Some((whole, true, frac))
      else None
  }

  /** Reads a decimal literal. What it accepts is valid and is exactly the
      rendering of what it returns (see `ScanRender` for the converse). */
  function Scan(s: string): (r: Option<Literal>)
    ensures r.Some? ==> ValidLiteral(r.value) && Render(r.value) == s
  {
    var (sign, body) := ScanSign(s);
    match ScanBody(body)
    case None => None
    case Some((w, p, f)) => Some(Literal(sign, w, p, f))
  }

  lemma ScanBodyText(whole: string, point: bool, frac: string)
    requires AllDigits(whole) && AllDigits(frac) && |whole| + |frac| > 0 && (!point ==> frac == "")
    ensures ScanBody(BodyText(whole, point, frac)) == Some((whole, point, frac))
  {
    var body := BodyText(whole, point, frac);
    if point {
      assert body[|whole|] == '.';
      assert forall j :: 0 <= j < |whole| ==> body[j] == whole[j];
      assert body[..|whole|] == whole;
      assert body[|whole| + 1..] == frac;
    } else {
      assert body == whole;
      assert forall j :: 0 <= j < |body| ==> body[j] != '.';
    }
  }

  /** Every valid literal is read back from its rendering. */
  lemma ScanRender(l: Literal)
    requires ValidLiteral(l)
    ensures Scan(Render(l)) == Some(l)
  {
    var body := BodyText(l.whole, l.point, l.frac);
    assert |body| > 0 && (IsDigitChar(body[0]) || body[0] == '.') by {
      if |l.whole| > 0 {
        assert body[0] == l.whole[0];
      } else {
        assert body[0] == '.';
      }
    }
    var s := Render(l);
    assert s == SignText(l.sign) + body;
    match l.sign {
      case Unsigned =>
        assert s == body;
      case Plus =>
        assert s[0] == '+' && s[1..] == body;
      case Minus =>
        assert s[0] == '-' && s[1..] == body;
    }
    ScanBodyText(l.whole, l.point, l.frac);
  }

  /** The exact value a literal denotes. */
  function Value(l: Literal): real
    requires ValidLiteral(l)
  {
    var magnitude := Natural(l.whole) as real + Natural(l.frac) as real / Pow10(|l.frac|) as real;
    if l.sign == Minus then -magnitude else magnitude
  }

  /** `get_amount_from_str`: anything the decimal constructor rejects,
      including `None`, gives 0.00, and it never fails. `AmountOfLiteral`
      states what a well-formed text gives. */
  function GetAmountFromStr(amount: Option<string>): (r: real)
    ensures amount.None? ==> r == 0.0
    ensures amount.Some? && Scan(amount.value).None? ==> r == 0.0
  {
    if amount.None? then 0.0
    else match Scan(amount.value)
      case None => 0.0
      case Some(l) => Value(l)
  }

  /** A well-formed decimal text gives exactly the value it denotes. */
  lemma AmountOfLiteral(l: Literal)
    requires ValidLiteral(l)
    ensures GetAmountFromStr(Some(Render(l))) == Value(l)
  {
    ScanRender(l);
  }

  /** Two digits for a remainder below 100, leading zero kept. */
  function TwoDigits(r: nat): (s: string)
    requires r < 100
    ensures AllDigits(s) && Natural(s) == r
  {
    var s := [DigitChar(r / 10), DigitChar(r % 10)];
    assert s[..1] == [DigitChar(r / 10)];
    assert s[..1][..0] == [];
    assert Natural(s[..1]) == r / 10;
    s
  }

  /** The literal that `str()` writes for an amount held to two places,
      given in cents: `-12.34` for -1234, `0.50` for 50. */
  function CentsLiteral(cents: int): (l: Literal)
    ensures ValidLiteral(l)
  {
    var m: nat := if cents < 0 then -cents else cents;
    Literal(if cents < 0 then Minus else Unsigned, ShowNat(m / 100), true, TwoDigits(m % 100))
  }

  function ShowCents(cents: int): string {
    Render(CentsLiteral(cents))
  }

  lemma {:induction false} ValueOfCentsLiteral(cents: int)
    ensures Value(CentsLiteral(cents)) == cents as real / 100.0
  {
    var m: nat := if cents < 0 then -cents else cents;
    var q, r := m / 100, m % 100;
    var l := CentsLiteral(cents);
    assert l.whole == ShowNat(q) && l.frac == TwoDigits(r);
    NaturalOfShowNat(q);
    assert Pow10(|l.frac|) == 100;
    CentsArithmetic(m, q, r);
    var magnitude := Natural(l.whole) as real + Natural(l.frac) as real / Pow10(|l.frac|) as real;
    assert magnitude == m as real / 100.0;
  }

  lemma CentsArithmetic(m: nat, q: nat, r: nat)
    requires m == 100 * q + r
    ensures q as real + r as real / 100.0 == m as real / 100.0
  {
    assert m as real == 100.0 * q as real + r as real;
  }

  /** A two-place amount written out as text parses back to its exact value,
      negative amounts included: there is no sign clamping. */
  lemma AmountOfShowCents(cents: int)
    ensures GetAmountFromStr(Some(ShowCents(cents))) == cents as real / 100.0
  {
    AmountOfLiteral(CentsLiteral(cents));
    ValueOfCentsLiteral(cents);
  }

  /** `str()` of the amounts below one unit: "0.cd". */
  lemma ShowSmallCents(cents: nat)
    requires cents < 100
    ensures ShowCents(cents) == ['0', '.', DigitChar(cents / 10), DigitChar(cents % 10)]
  {
    assert ShowNat(0) == ['0'];
  }

  /** A text "0.cd" gives the amount cd/100. */
  lemma AmountOfSmallCents(cents: nat, text: string)
    requires cents < 100
    requires text == ['0', '.', DigitChar(cents / 10), DigitChar(cents % 10)]
    ensures GetAmountFromStr(Some(text)) == cents as real / 100.0
  {
    ShowSmallCents(cents);
    AmountOfShowCents(cents);
  }

  /** The rates are the values of the literals they are written with. */
  lemma RatesAreDecimalLiterals()
    ensures GetAmountFromStr(Some("0.90")) == RiderShare
    ensures GetAmountFromStr(Some("0.03")) == CommissionerShare
    ensures GetAmountFromStr(Some("0.07")) == BossShareWithCommissioner
    ensures GetAmountFromStr(Some("0.10")) == BossShareNoCommissioner
    ensures GetAmountFromStr(Some("0.00")) == 0.0
  {
    assert DigitChar(0) == '0' && DigitChar(1) == '1' && DigitChar(3) == '3';
    assert DigitChar(7) == '7' && DigitChar(9) == '9';
    AmountOfSmallCents(90, "0.90");
    AmountOfSmallCents(3, "0.03");
    AmountOfSmallCents(7, "0.07");
    AmountOfSmallCents(10, "0.10");
    AmountOfSmallCents(0, "0.00");
  }

  /** Malformed texts fall back to zero. */
  lemma MalformedAmountsAreZero()
    ensures GetAmountFromStr(Some("")) == 0.0
    ensures GetAmountFromStr(Some(".")) == 0.0
    ensures GetAmountFromStr(Some("-")) == 0.0
    ensures GetAmountFromStr(Some("1.2.3")) == 0.0
    ensures GetAmountFromStr(Some("abc")) == 0.0
  {
    NoDigitsRejected();
    SecondPointRejected();
    LettersRejected();
  }

  lemma NoDigitsRejected()
    ensures Scan("") == None && Scan(".") == None && Scan("-") == None
  {
    assert ScanSign("") == (Unsigned, "");
    assert ScanSign("-") == (Minus, "");
    assert ScanBody("") == None;
    assert ScanSign(".") == (Unsigned, ".");
    assert IndexOf(".", '.') == 0;
    assert ScanBody(".") == None;
  }

  lemma SecondPointRejected()
    ensures Scan("1.2.3") == None
  {
    var bad := "1.2.3";
    assert ScanSign(bad) == (Unsigned, bad);
    assert IndexOf(bad, '.') == 1;
    assert bad[2..] == "2.3";
    assert !IsDigitChar("2.3"[1]);
    assert ScanBody(bad) == None;
  }

  lemma LettersRejected()
    ensures Scan("abc") == None
  {
    assert ScanSign("abc") == (Unsigned, "abc");
    assert !IsDigitChar("abc"[0]);
    assert ScanBody("abc") == None;
  }

}

=== FILE: audited_wallets.dfy ===
/** Wallets that keep an audit trail (wallets/models.py): each credit or
    debit changes the balance and appends one row to the wallet-transaction
    table. The row holds the four fields each call passes: the wallet, the
    amount, the kind of movement and the description. */
module AuditedWallets {

  datatype WalletType = RiderWallet | CommissionerWallet | BossWallet

  datatype EntryType = Credit | Debit

  /** A wallet row. An owner may hold several wallets. */
  datatype Wallet = Wallet(id: nat, owner: nat, walletType: WalletType, balance: real)

  /** A row of the wallet-transaction table: the wallet it belongs to, the
      amount as passed (a debit records the amount, not its negation), the
      kind of movement and a free-text description. */
  datatype WalletTransaction = WalletTransaction(wallet: nat, amount: real, transactionType: EntryType, description: string)

  /** A wallet together with the wallet-transaction table it writes to; the
      table may also hold rows of other wallets. */
  datatype Account = Account(wallet: Wallet, log: seq<WalletTransaction>)

  const OpeningBalance: real := 0.00

  /** A wallet as created with the model defaults. */
  function Open(id: nat, owner: nat, walletType: WalletType, log: seq<WalletTransaction>): (a: Account)
    ensures a.wallet.balance == OpeningBalance && a.log == log
    ensures a.wallet.id == id && a.wallet.owner == owner && a.wallet.walletType == walletType
  {
    Account(Wallet(id, owner, walletType, OpeningBalance), log)
  }

  /** The effect of one row on the balance of the given wallet. */
  function Effect(t: WalletTransaction, wallet: nat): real {
    if t.wallet != wallet then 0.0
    else if t.transactionType == Credit then t.amount
    else -t.amount
  }

  /** Credits minus debits recorded for the given wallet. */
  function Net(log: seq<WalletTransaction>, wallet: nat): real
    decreases |log|
  {
    if |log| == 0 then 0.0 else Net(log[..|log| - 1], wallet) + Effect(log[|log| - 1], wallet)
  }

  /** Sum of the credit amounts recorded for the given wallet. */
  function Credits(log: seq<WalletTransaction>, wallet: nat): real
    decreases |log|
  {
    if |log| == 0 then 0.0
    else
      var t := log[|log| - 1];
      Credits(log[..|log| - 1], wallet) + (if t.wallet == wallet && t.transactionType == Credit then t.amount else 0.0)
  }

  /** Sum of the debit amounts recorded for the given wallet. */
  function Debits(log: seq<WalletTransaction>, wallet: nat): real
    decreases |log|
  {
    if |log| == 0 then 0.0
    else
      var t := log[|log| - 1];
      Debits(log[..|log| - 1], wallet) + (if t.wallet == wallet && t.transactionType == Debit then t.amount else 0.0)
  }

  lemma {:induction false} NetIsCreditsMinusDebits(log: seq<WalletTransaction>, wallet: nat)
    ensures Net(log, wallet) == Credits(log, wallet) - Debits(log, wallet)
    decreases |log|
  {
    if |log| > 0 {
      NetIsCreditsMinusDebits(log[..|log| - 1], wallet);
    }
  }

  /** The audit invariant: the balance is what the wallet started with plus
      the credits minus the debits logged against it since. */
  predicate Balanced(a: Account, opening: real, start: nat) {
    start <= |a.log| && a.wallet.balance == opening + Net(a.log, a.wallet.id) - Net(a.log[..start], a.wallet.id)
  }

  /** `Wallet.credit`: the balance grows by the amount and exactly one
      'credit' row for this wallet is appended; nothing else changes. */
  function CreditWallet(a: Account, amount: real, description: string): (r: Account)
    ensures r.wallet.balance == a.wallet.balance + amount
    ensures r.wallet.(balance := a.wallet.balance) == a.wallet
    ensures |r.log| == |a.log| + 1 && r.log[..|a.log|] == a.log
    ensures r.log[|a.log|] == WalletTransaction(a.wallet.id, amount, Credit, description)
    ensures forall opening: real, start: nat :: Balanced(a, opening, start) ==> Balanced(r, opening, start)
  {
    var r := Account(a.wallet.(balance := a.wallet.balance + amount),
                     a.log + [WalletTransaction(a.wallet.id, amount, Credit, description)]);
    assert r.log[..|a.log|] == a.log;
    forall opening: real, start: nat | Balanced(a, opening, start)
      ensures Balanced(r, opening, start)
    {
      assert r.log[..start] == a.log[..start];
    }
    r
  }

  /** `Wallet.debit`: the balance shrinks by the amount, with no check for
      sufficient funds, and exactly one 'debit' row recording the amount
      itself is appended; nothing else changes. */
  function DebitWallet(a: Account, amount: real, description: string): (r: Account)
    ensures r.wallet.balance == a.wallet.balance - amount
    ensures r.wallet.(balance := a.wallet.balance) == a.wallet
    ensures |r.log| == |a.log| + 1 && r.log[..|a.log|] == a.log
    ensures r.log[|a.log|] == WalletTransaction(a.wallet.id, amount, Debit, description)
    ensures forall opening: real, start: nat :: Balanced(a, opening, start) ==> Balanced(r, opening, start)
  {
    var r := Account(a.wallet.(balance := a.wallet.balance - amount),
                     a.log + [WalletTransaction(a.wallet.id, amount, Debit, description)]);
    assert r.log[..|a.log|] == a.log;
    forall opening: real, start: nat | Balanced(a, opening, start)
      ensures Balanced(r, opening, start)
    {
      assert r.log[..start] == a.log[..start];
    }
    r
  }

  /** The row a call appends counts only for its own wallet: every other
      wallet's logged total is unchanged. */
  lemma CallsLeaveOtherWalletsAlone(a: Account, op: Operation, other: nat)
    requires other != a.wallet.id
    ensures Net(Apply(a, op).log, other) == Net(a.log, other)
  {
    var r := Apply(a, op);
    assert r.log[..|r.log| - 1] == a.log;
  }

  /** A debit larger than the balance goes through and leaves it negative. */
  lemma DebitCanOverdraw(a: Account, amount: real, description: string)
    requires a.wallet.balance < amount
    ensures DebitWallet(a, amount, description).wallet.balance < 0.0
  {
  }

  /** A credit followed by a debit of the same amount restores the balance,
      and the log grows by the two rows. */
  lemma CreditThenDebitRestoresBalance(a: Account, amount: real, d1: string, d2: string)
    ensures DebitWallet(CreditWallet(a, amount, d1), amount, d2).wallet == a.wallet
    ensures DebitWallet(CreditWallet(a, amount, d1), amount, d2).log
         == a.log + [WalletTransaction(a.wallet.id, amount, Credit, d1), WalletTransaction(a.wallet.id, amount, Debit, d2)]
  {
    var b := CreditWallet(a, amount, d1);
    var c := DebitWallet(b, amount, d2);
    assert c.log == b.log[..|a.log| + 1] + [c.log[|b.log|]];
  }

  /** One call on a wallet. */
  datatype Operation = DoCredit(amount: real, description: string) | DoDebit(amount: real, description: string)

  function Apply(a: Account, op: Operation): Account {
    match op
    case DoCredit(amount, d) => CreditWallet(a, amount, d)
    case DoDebit(amount, d) => DebitWallet(a, amount, d)
  }

  /** Applies the calls in order. */
  function Run(a: Account, ops: seq<Operation>): Account
    decreases |ops|
  {
    if |ops| == 0 then a else Apply(Run(a, ops[..|ops| - 1]), ops[|ops| - 1])
  }

  /** Any sequence of credits and debits on a fresh wallet keeps the audit
      invariant: its balance is the opening 0.00 plus the credits minus the
      debits logged for it since it was opened. The wallet's identity, owner
      and type never change. */
  lemma {:induction false} RunKeepsBalanced(id: nat, owner: nat, walletType: WalletType,
                                            log: seq<WalletTransaction>, ops: seq<Operation>)
    ensures var r := Run(Open(id, owner, walletType, log), ops);
      && r.wallet.id == id && r.wallet.owner == owner && r.wallet.walletType == walletType
      && |log| <= |r.log| && r.log[..|log|] == log
      && r.wallet.balance == OpeningBalance + Net(r.log, id) - Net(log, id)
    decreases |ops|
  {
    var a := Open(id, owner, walletType, log);
    if |ops| == 0 {
      assert log[..|log|] == log;
    } else {
      RunKeepsBalanced(id, owner, walletType, log, ops[..|ops| - 1]);
      var b := Run(a, ops[..|ops| - 1]);
      assert Balanced(b, OpeningBalance, |log|);
      var r := Apply(b, ops[|ops| - 1]);
      assert Balanced(r, OpeningBalance, |log|);
      assert r.log[..|b.log|] == b.log;
      assert r.log[..|log|] == b.log[..|log|];
    }
  }

  /** On a wallet opened with an empty log, the balance equals the logged
      credits minus the logged debits. */
  lemma FreshWalletBalance(id: nat, owner: nat, walletType: WalletType, ops: seq<Operation>)
    ensures var r := Run(Open(id, owner, walletType, []), ops);
      r.wallet.balance == Credits(r.log, id) - Debits(r.log, id)
  {
    RunKeepsBalanced(id, owner, walletType, [], ops);
    var r := Run(Open(id, owner, walletType, []), ops);
    NetIsCreditsMinusDebits(r.log, id);
  }
}

=== FILE: basics.dfy ===
/** Shared vocabulary: optional values, results, decimal digits and the
    base-10 rendering of naturals that Python's `str()` performs. */
module Basics {

  /** A value that may be absent, like Python's `None` or a nullable column. */
  datatype Option<+T> = None | Some(value: T) {
    function GetOr(default: T): T {
      if Some? then value else default
    }
  }

  /** The outcome of an operation that can fail with an error of type E. */
  datatype Result<+T, +E> = Ok(value: T) | Err(error: E)

  /** One draw of `random.randint(0, 9)`. */
  type Digit = d: int | 0 <= d <= 9

  predicate IsDigitChar(c: char) {
    '0' <= c <= '9'
  }

  predicate AllDigits(s: string) {
    forall i :: 0 <= i < |s| ==> IsDigitChar(s[i])
  }

  function DigitValue(c: char): Digit
    requires IsDigitChar(c)
  {
    c as int - '0' as int
  }

  /** `str(d)` for a single decimal digit. */
  function DigitChar(d: Digit): (c: char)
    ensures IsDigitChar(c)
    ensures DigitValue(c) == d
  {
    ('0' as int + d) as char
  }

  /** `''.join(str(d) for d in ds)`: one character per digit, in order. */
  function DigitString(ds: seq<Digit>): (s: string)
    ensures |s| == |ds| && AllDigits(s)
    ensures forall i :: 0 <= i < |s| ==> DigitValue(s[i]) == ds[i]
  {
    seq(|ds|, i requires 0 <= i < |ds| => DigitChar(ds[i]))
  }

  function Pow10(k: nat): (r: nat)
    ensures r >= 1
  {
    if k == 0 then 1 else 10 * Pow10(k - 1)
  }

  /** The value of a digit string read in base 10, most significant digit first. */
  function Natural(s: string): nat
    requires AllDigits(s)
    decreases |s|
  {
    if |s| == 0 then 0 else Natural(s[..|s| - 1]) * 10 + DigitValue(s[|s| - 1])
  }

  /** `str(n)` for a non-negative Python int: no sign, no leading zeros. */
  function ShowNat(n: nat): (s: string)
    ensures |s| > 0 && AllDigits(s)
    decreases n
  {
    if n < 10 then [DigitChar(n)] else ShowNat(n / 10) + [DigitChar(n % 10)]
  }

  /** Reading back what `ShowNat` wrote gives the number again. */
  lemma {:induction false} NaturalOfShowNat(n: nat)
    ensures Natural(ShowNat(n)) == n
    decreases n
  {
    if n >= 10 {
      var s := ShowNat(n);
      assert s[..|s| - 1] == ShowNat(n / 10);
      NaturalOfShowNat(n / 10);
    }
  }

  lemma ShowNatInjective(m: nat, n: nat)
    ensures ShowNat(m) == ShowNat(n) ==> m == n
  {
    NaturalOfShowNat(m);
    NaturalOfShowNat(n);
  }

  /** Splitting `d1 + s1 == d2 + s2` where each `d` is a non-empty digit run
      and each `s` is empty or starts with a non-digit: the split is unique. */
  lemma DigitRunUnique(d1: string, s1: string, d2: string, s2: string)
    requires AllDigits(d1) && AllDigits(d2)
    requires s1 == [] || !IsDigitChar(s1[0])
    requires s2 == [] || !IsDigitChar(s2[0])
    requires d1 + s1 == d2 + s2
    ensures d1 == d2 && s1 == s2
  {
    if |d1| < |d2| {
      CharOfConcat(d1, s1, |d1|);
      CharOfConcat(d2, s2, |d1|);
      assert false;
    } else if |d2| < |d1| {
      CharOfConcat(d1, s1, |d2|);
      CharOfConcat(d2, s2, |d2|);
      assert false;
    }
    assert d1 == (d1 + s1)[..|d1|];
    assert d2 == (d2 + s2)[..|d2|];
    assert s1 == (d1 + s1)[|d1|..];
    assert s2 == (d2 + s2)[|d2|..];
  }

  lemma CharOfConcat(a: string, b: string, i: int)
    ensures 0 <= i < |a| ==> (a + b)[i] == a[i]
    ensures |a| <= i < |a| + |b| ==> (a + b)[i] == b[i - |a|]
  {
  }

  lemma CancelPrefix(p: string, x: string, y: string)
    requires p + x == p + y
    ensures x == y
  {
    assert x == (p + x)[|p|..];
    assert y == (p + y)[|p|..];
  }
}

=== FILE: ledger.dfy ===
/** Ledger rows and their history rows (transactions/models.py). */
module Ledger {
  import opened Basics

  /** The money-field format of the ledger: at most 10 digits, 2 of them
      after the point. */
  ghost predicate FitsMoneyField(x: real) {
    exists cents: int :: -10000000000 < cents < 10000000000 && x == CentsValue(cents)
  }

  function CentsValue(cents: int): real {
    cents as real / 100.0
  }

  /** A value that fits the money field is below 10^8 in absolute value. */
  lemma MoneyFieldBound(x: real)
    requires FitsMoneyField(x)
    ensures -100000000.0 < x < 100000000.0
  {
    var cents: int :| -10000000000 < cents < 10000000000 && x == CentsValue(cents);
    assert (cents as real) < 10000000000.0;
    assert -10000000000.0 < (cents as real);
  }

  /** Running totals for one rider / commissioner / boss combination. The
      rider and the boss are mandatory links, the commissioner is optional. */
  datatype Transaction = Transaction(
    id: nat,
    rider: nat,
    commissioner: Option<nat>,
    boss: nat,
    riderTotal: real,
    commissionerTotal: real,
    bossTotal: real)

  /** A ledger row as created: the given parties, every total at its
      default 0. */
  function NewTransaction(id: nat, rider: nat, commissioner: Option<nat>, boss: nat): (t: Transaction)
    ensures t.id == id && t.rider == rider && t.commissioner == commissioner && t.boss == boss
    ensures t.riderTotal == 0.0 && t.commissionerTotal == 0.0 && t.bossTotal == 0.0
    ensures FitsMoneyField(t.riderTotal) && FitsMoneyField(t.commissionerTotal) && FitsMoneyField(t.bossTotal)
  {
    var t := Transaction(id, rider, commissioner, boss, 0.0, 0.0, 0.0);
    assert 0.0 == CentsValue(0);
    t
  }

  /** One settlement record. It always belongs to exactly one ledger row
      (`transaction`, a mandatory link); the delivery request and the
      booking are both optional links. */
  datatype TransactionHistory = TransactionHistory(
    id: nat,
    transaction: nat,
    deliveryRequest: Option<nat>,
    bookRider: Option<nat>,
    riderAmount: real,
    commissionerAmount: real,
    bossAmount: real)

  /** A history row as created: the rider and boss amounts must be given,
      the commissioner amount defaults to 0 when omitted. */
  function NewHistory(id: nat, ledger: Transaction, deliveryRequest: Option<nat>, bookRider: Option<nat>,
                      riderAmount: real, commissionerAmount: Option<real>, bossAmount: real): (h: TransactionHistory)
    ensures h.id == id && h.transaction == ledger.id
    ensures h.deliveryRequest == deliveryRequest && h.bookRider == bookRider
    ensures h.riderAmount == riderAmount && h.bossAmount == bossAmount
    ensures h.commissionerAmount == if commissionerAmount.Some? then commissionerAmount.value else 0.0
  {
    TransactionHistory(id, ledger.id, deliveryRequest, bookRider, riderAmount, commissionerAmount.GetOr(0.0), bossAmount)
  }

  /** What a history label refers to besides the ledger row. */
  datatype LabelRef = DeliveryRef(id: nat) | BookingRef(id: nat) | NoRef

  /** The label's choice: the delivery request when there is one, otherwise
      the booking when there is one, otherwise nothing. */
  function Referenced(h: TransactionHistory): (r: LabelRef)
    ensures r.NoRef? <==> h.deliveryRequest.None? && h.bookRider.None?
    ensures r.DeliveryRef? <==> h.deliveryRequest.Some?
    ensures r.DeliveryRef? ==> r.id == h.deliveryRequest.value
    ensures r.BookingRef? ==> h.bookRider.Some? && r.id == h.bookRider.value
  {
    if h.deliveryRequest.Some? then DeliveryRef(h.deliveryRequest.value)
    else if h.bookRider.Some? then BookingRef(h.bookRider.value)
    else NoRef
  }

  const LabelPrefix: string := "History for Transaction "

  function RefSuffix(r: LabelRef): string {
    match r
    case DeliveryRef(id) => " (DeliveryRequest " + ShowNat(id) + ")"
    case BookingRef(id) => " (BookRider " + ShowNat(id) + ")"
    case NoRef => ""
  }

  /** `TransactionHistory.__str__`. */
  function Label(h: TransactionHistory): (s: string)
    ensures |s| > |LabelPrefix| && s[..|LabelPrefix|] == LabelPrefix
    ensures s[|s| - 1] == ')' <==> !Referenced(h).NoRef?
  {
    var s := LabelPrefix + ShowNat(h.transaction) + RefSuffix(Referenced(h));
    assert s[..|LabelPrefix|] == LabelPrefix;
    s
  }

  lemma RefSuffixUnique(a: LabelRef, b: LabelRef)
    requires RefSuffix(a) == RefSuffix(b)
    ensures a == b
  {
    var s := RefSuffix(a);
    match a {
      case NoRef =>
      case DeliveryRef(m) =>
        var p := " (DeliveryRequest ";
        assert s[2] == 'D';
        assert !b.NoRef? && !b.BookingRef?;
        var n := b.id;
        assert s == p + (ShowNat(m) + ")") == p + (ShowNat(n) + ")");
        CancelPrefix(p, ShowNat(m) + ")", ShowNat(n) + ")");
        DigitRunUnique(ShowNat(m), ")", ShowNat(n), ")");
        ShowNatInjective(m, n);
      case BookingRef(m) =>
        var p := " (BookRider ";
        assert s[2] == 'B';
        assert !b.NoRef? && !b.DeliveryRef?;
        var n := b.id;
        assert s == p + (ShowNat(m) + ")") == p + (ShowNat(n) + ")");
        CancelPrefix(p, ShowNat(m) + ")", ShowNat(n) + ")");
        DigitRunUnique(ShowNat(m), ")", ShowNat(n), ")");
        ShowNatInjective(m, n);
    }
  }

  /** A label shows exactly the ledger row and the selected reference: two
      history rows have the same label if and only if they belong to the
      same ledger row and name the same delivery request, the same booking,
      or neither. */
  lemma LabelIdentifies(h1: TransactionHistory, h2: TransactionHistory)
    ensures Label(h1) == Label(h2) <==> h1.transaction == h2.transaction && Referenced(h1) == Referenced(h2)
  {
    if Label(h1) == Label(h2) {
      LabelsAgree(h1, h2);
    }
  }

  lemma LabelsAgree(h1: TransactionHistory, h2: TransactionHistory)
    requires Label(h1) == Label(h2)
    ensures h1.transaction == h2.transaction
    ensures Referenced(h1) == Referenced(h2)
  {
    var d1, d2 := ShowNat(h1.transaction), ShowNat(h2.transaction);
    var s1, s2 := RefSuffix(Referenced(h1)), RefSuffix(Referenced(h2));
    LabelParts(h1);
    LabelParts(h2);
    CancelPrefix(LabelPrefix, d1 + s1, d2 + s2);
    DigitRunUnique(d1, s1, d2, s2);
    ShowNatInjective(h1.transaction, h2.transaction);
    RefSuffixUnique(Referenced(h1), Referenced(h2));
  }

  /** A label is the prefix, the ledger id, then a suffix that is empty or
      starts with a space. */
  lemma LabelParts(h: TransactionHistory)
    ensures Label(h) == LabelPrefix + (ShowNat(h.transaction) + RefSuffix(Referenced(h)))
    ensures var s := RefSuffix(Referenced(h)); s == [] || !IsDigitChar(s[0])
  {
    var s := RefSuffix(Referenced(h));
    assert s == [] || s[0] == ' ';
  }
}

=== FILE: otp.dfy ===
/** One-time passwords (account/utils.py): a string of random decimal
    digits. `draw(i)` is the i-th result of `random.randint(0, 9)`. */
module Otp {
  import opened Basics

  const DefaultLength: nat := 7

  /** `generate_otp(length)`: exactly `length` characters, each a digit,
      and each the digit drawn at its position. The result is text, so
      leading zeros are kept. A negative length iterates over an empty
      range and gives the empty text. */
  function GenerateOtp(length: int, draw: nat -> Digit): (otp: string)
    ensures |otp| == if length < 0 then 0 else length
    ensures AllDigits(otp)
    ensures forall i :: 0 <= i < |otp| ==> DigitValue(otp[i]) == draw(i)
  {
    var n := if length < 0 then 0 else length;
    DigitString(seq(n, i requires 0 <= i < n => draw(i)))
  }

  /** `generate_otp()` with the default length. */
  function GenerateDefaultOtp(draw: nat -> Digit): (otp: string)
    ensures |otp| == DefaultLength && AllDigits(otp)
    ensures forall i :: 0 <= i < |otp| ==> DigitValue(otp[i]) == draw(i)
  {
    GenerateOtp(DefaultLength, draw)
  }

  /** The draws can be read back from the password: different draws give
      different passwords. */
  lemma OtpDeterminesDraws(length: nat, d1: nat -> Digit, d2: nat -> Digit, i: nat)
    requires GenerateOtp(length, d1) == GenerateOtp(length, d2)
    requires i < length
    ensures d1(i) == d2(i)
  {
    assert DigitValue(GenerateOtp(length, d1)[i]) == d1(i);
  }

  /** A zero or negative length gives the empty password. */
  lemma EmptyOtp(length: int, draw: nat -> Digit)
    requires length <= 0
    ensures GenerateOtp(length, draw) == ""
  {
  }

  /** Leading zeros are kept: all-zero draws give a password of zeros. */
  function ZeroDraw(i: nat): Digit {
    0
  }

  lemma ZeroDrawsGiveZeros(length: nat)
    ensures var otp := GenerateOtp(length, ZeroDraw); forall i :: 0 <= i < |otp| ==> otp[i] == '0'
  {
  }
}

=== FILE: permissions.dfy ===
/** Granting, revoking and listing a user's permissions (system/views.py).
    Permissions are identified by their codename, which is taken to be
    unique; the user table and the group table are maps. */
module Permissions {
  import opened Basics

  type Codename = string

  /** The user making the request. `perms` holds the permission strings
      ("app_label.codename") that `has_perm` grants the caller. */
  datatype Caller = Anonymous | Authenticated(isStaff: bool, isSuperuser: bool, perms: set<string>)

  datatype User = User(permissions: set<Codename>, groups: set<nat>)

  datatype Directory = Directory(
    users: map<nat, User>,
    known: set<Codename>,
    groupPermissions: map<nat, set<Codename>>)

  /** Every permission a user or group holds exists. */
  ghost predicate WellFormed(d: Directory) {
    && (forall u :: u in d.users ==> d.users[u].permissions <= d.known)
    && (forall g :: g in d.groupPermissions ==> d.groupPermissions[g] <= d.known)
  }

  /** Admin-only endpoint, then superuser or `auth.change_user`. */
  predicate MayChangePermissions(c: Caller) {
    c.Authenticated? && c.isStaff && (c.isSuperuser || "auth.change_user" in c.perms)
  }

  /** Authenticated endpoint, then superuser or `auth.view_permission`. */
  predicate MayViewPermissions(c: Caller) {
    c.Authenticated? && (c.isSuperuser || "auth.view_permission" in c.perms)
  }

  datatype Status = Assigned | AlreadyHas | Removed | NotHeld | PermissionNotFound

  /** One entry of the response's results. */
  datatype Entry = Entry(codename: Codename, status: Status)

  function Message(e: Entry): string {
    match e.status
    case Assigned => "Permission assigned successfully."
    case AlreadyHas => AlreadyHasPrefix + e.codename + AlreadyHasSuffix
    case Removed => "Permission removed successfully."
    case NotHeld => "User does not have the specified permission."
    case PermissionNotFound => "Permission not found."
  }

  const AlreadyHasPrefix: string := "User already has the \""
  const AlreadyHasSuffix: string := "\" permission."

  /** The response text of one entry tells its status, and the "already
      has" text names the codename it is about. */
  lemma MessageDeterminesStatus(e1: Entry, e2: Entry)
    requires Message(e1) == Message(e2)
    ensures e1.status == e2.status
    ensures e1.status == AlreadyHas ==> e1.codename == e2.codename
  {
    if e1.status == AlreadyHas {
      OnlyAlreadyHasNamesUser(e1, e2);
      SameCodename(e1.codename, e2.codename);
    } else if e2.status == AlreadyHas {
      OnlyAlreadyHasNamesUser(e2, e1);
    } else {
      assert Message(e1)[11] == Message(e2)[11];
    }
  }

  /** Only the "already has" text starts with "User a". */
  lemma OnlyAlreadyHasNamesUser(e: Entry, o: Entry)
    requires e.status == AlreadyHas && Message(e) == Message(o)
    ensures o.status == AlreadyHas
  {
    var m := Message(e);
    assert m == AlreadyHasPrefix + e.codename + AlreadyHasSuffix;
    assert m[0] == 'U' && m[5] == 'a';
  }

  lemma SameCodename(c1: Codename, c2: Codename)
    requires AlreadyHasPrefix + c1 + AlreadyHasSuffix == AlreadyHasPrefix + c2 + AlreadyHasSuffix
    ensures c1 == c2
  {
    assert AlreadyHasPrefix + c1 + AlreadyHasSuffix == AlreadyHasPrefix + (c1 + AlreadyHasSuffix);
    assert AlreadyHasPrefix + c2 + AlreadyHasSuffix == AlreadyHasPrefix + (c2 + AlreadyHasSuffix);
    CancelPrefix(AlreadyHasPrefix, c1 + AlreadyHasSuffix, c2 + AlreadyHasSuffix);
    assert c1 == (c1 + AlreadyHasSuffix)[..|c1|];
    assert c2 == (c2 + AlreadyHasSuffix)[..|c2|];
  }

  /** The codenames of the request that name existing permissions. */
  function Requested(cs: seq<Codename>, known: set<Codename>): (s: set<Codename>)
    ensures forall c :: c in s <==> c in cs && c in known
  {
    set c | c in cs && c in known
  }

  lemma RequestedSnoc(cs: seq<Codename>, known: set<Codename>)
    requires |cs| > 0
    ensures var c := cs[|cs| - 1];
      Requested(cs, known) == Requested(cs[..|cs| - 1], known) + (if c in known then {c} else {})
  {
    assert cs == cs[..|cs| - 1] + [cs[|cs| - 1]];
  }

  /** The status the grant loop reports for the i-th codename: not found
      when it does not exist, "already has" when the user held it before or
      an earlier entry of the list granted it, assigned otherwise. */
  function GrantStatus(held: set<Codename>, known: set<Codename>, cs: seq<Codename>, i: nat): Status
    requires i < |cs|
  {
    if cs[i] !in known then PermissionNotFound
    else if cs[i] in held || cs[i] in cs[..i] then AlreadyHas
    else Assigned
  }

  /** The status the revoke loop reports for the i-th codename: not found
      when it does not exist, removed when the user still held it at that
      point, "does not have" otherwise, which includes a repeat of an entry
      already removed. */
  function RevokeStatus(held: set<Codename>, known: set<Codename>, cs: seq<Codename>, i: nat): Status
    requires i < |cs|
  {
    if cs[i] !in known then PermissionNotFound
    else if cs[i] in held && cs[i] !in cs[..i] then Removed
    else NotHeld
  }

  /** The grant loop over the requested codenames, in order: the final set
      is the old one plus every existing requested permission, with one
      status per codename. */
  function GrantAll(held: set<Codename>, known: set<Codename>, cs: seq<Codename>): (r: (set<Codename>, seq<Status>))
    ensures r.0 == held + Requested(cs, known)
    ensures |r.1| == |cs|
    ensures forall i :: 0 <= i < |cs| ==> r.1[i] == GrantStatus(held, known, cs, i)
    decreases |cs|
  {
    if |cs| == 0 then (held, [])
    else
      var n := |cs| - 1;
      var (h, sts) := GrantAll(held, known, cs[..n]);
      var c := cs[n];
      RequestedSnoc(cs, known);
      assert forall i :: 0 <= i < n ==> cs[..n][..i] == cs[..i];
      var st := if c !in known then PermissionNotFound else if c in h then AlreadyHas else Assigned;
      var r := (if st == Assigned then h + {c} else h, sts + [st]);
      assert r.1[n] == st;
      assert c in known ==> (c in h <==> c in held || c in cs[..n]);
      r
  }

  /** The revoke loop: the final set is the old one minus every existing
      requested permission, with one status per codename. */
  function RevokeAll(held: set<Codename>, known: set<Codename>, cs: seq<Codename>): (r: (set<Codename>, seq<Status>))
    ensures r.0 == held - Requested(cs, known)
    ensures |r.1| == |cs|
    ensures forall i :: 0 <= i < |cs| ==> r.1[i] == RevokeStatus(held, known, cs, i)
    decreases |cs|
  {
    if |cs| == 0 then (held, [])
    else
      var n := |cs| - 1;
      var (h, sts) := RevokeAll(held, known, cs[..n]);
      var c := cs[n];
      RequestedSnoc(cs, known);
      assert forall i :: 0 <= i < n ==> cs[..n][..i] == cs[..i];
      var st := if c !in known then PermissionNotFound else if c in h then Removed else NotHeld;
      var r := (if st == Removed then h - {c} else h, sts + [st]);
      assert r.1[n] == st;
      assert c in known ==> (c in h <==> c in held && c !in cs[..n]);
      r
  }

  /** Repeating a grant changes nothing and reports every existing
      permission as already held. */
  lemma {:induction false} GrantIsIdempotent(held: set<Codename>, known: set<Codename>, cs: seq<Codename>)
    ensures var once := GrantAll(held, known, cs).0;
      && GrantAll(once, known, cs).0 == once
      && forall i :: 0 <= i < |cs| && cs[i] in known ==> GrantAll(once, known, cs).1[i] == AlreadyHas
  {
    var once := GrantAll(held, known, cs).0;
    var twice := GrantAll(once, known, cs);
    forall i | 0 <= i < |cs| && cs[i] in known
      ensures twice.1[i] == AlreadyHas
    {
      assert cs[i] in Requested(cs, known);
    }
  }

  /** Revoking what was just granted leaves the old set without the
      requested permissions. */
  lemma GrantThenRevoke(held: set<Codename>, known: set<Codename>, cs: seq<Codename>)
    ensures RevokeAll(GrantAll(held, known, cs).0, known, cs).0 == held - Requested(cs, known)
  {
  }

  /** When the user only holds existing permissions, revoking removes
      exactly the requested codenames. */
  lemma RevokeRemovesRequested(held: set<Codename>, known: set<Codename>, cs: seq<Codename>)
    requires held <= known
    ensures RevokeAll(held, known, cs).0 == held - (set c | c in cs)
  {
  }

  function Entries(cs: seq<Codename>, sts: seq<Status>): (es: seq<Entry>)
    requires |sts| == |cs|
    ensures |es| == |cs|
    ensures forall i :: 0 <= i < |cs| ==> es[i] == Entry(cs[i], sts[i])
  {
    seq(|cs|, i requires 0 <= i < |cs| => Entry(cs[i], sts[i]))
  }

  /** The posted data: `user_id` and the list `permission_codename`, each
      possibly absent. */
  datatype PermissionRequest = PermissionRequest(userId: Option<nat>, codenames: Option<seq<Codename>>)

  datatype Outcome = Denied | UserNotFound | Results(entries: seq<Entry>)

  /** The directory after the request, and the response. */
  datatype Reply = Reply(directory: Directory, outcome: Outcome)

  /** Only the target user's own permission set may differ. */
  predicate OnlyUserPermissionsChange(d: Directory, d': Directory, u: nat) {
    && d'.known == d.known
    && d'.groupPermissions == d.groupPermissions
    && d'.users.Keys == d.users.Keys
    && (forall v :: v in d.users && v != u ==> d'.users[v] == d.users[v])
    && (u in d.users ==> d'.users[u].groups == d.users[u].groups)
  }

  /** `AssignPermissionView.post`. */
  function AssignPermissions(d: Directory, caller: Caller, req: PermissionRequest): (r: Reply)
    ensures !MayChangePermissions(caller) ==> r == Reply(d, Denied)
    ensures MayChangePermissions(caller) && (req.userId.None? || req.userId.value !in d.users)
            ==> r == Reply(d, UserNotFound)
    ensures r.outcome.Results? <==> MayChangePermissions(caller) && req.userId.Some? && req.userId.value in d.users
    ensures r.outcome.Results? ==>
      var u := req.userId.value;
      var cs := req.codenames.GetOr([]);
      && MayChangePermissions(caller) && u in d.users
      && OnlyUserPermissionsChange(d, r.directory, u)
      && r.directory.users[u].permissions == d.users[u].permissions + Requested(cs, d.known)
      && |r.outcome.entries| == |cs|
      && forall i :: 0 <= i < |cs| ==>
           (r.outcome.entries[i].codename == cs[i] &&
            r.outcome.entries[i].status == GrantAll(d.users[u].permissions, d.known, cs).1[i])
    ensures WellFormed(d) ==> WellFormed(r.directory)
  {
    if !MayChangePermissions(caller) then Reply(d, Denied)
    else if req.userId.None? || req.userId.value !in d.users then Reply(d, UserNotFound)
    else
      var u := req.userId.value;
      var cs := req.codenames.GetOr([]);
      var user := d.users[u];
      var (perms, sts) := GrantAll(user.permissions, d.known, cs);
      Reply(d.(users := d.users[u := user.(permissions := perms)]), Results(Entries(cs, sts)))
  }

  /** `RemovePermissionView.post`. */
  function RemovePermissions(d: Directory, caller: Caller, req: PermissionRequest): (r: Reply)
    ensures !MayChangePermissions(caller) ==> r == Reply(d, Denied)
    ensures MayChangePermissions(caller) && (req.userId.None? || req.userId.value !in d.users)
            ==> r == Reply(d, UserNotFound)
    ensures r.outcome.Results? <==> MayChangePermissions(caller) && req.userId.Some? && req.userId.value in d.users
    ensures r.outcome.Results? ==>
      var u := req.userId.value;
      var cs := req.codenames.GetOr([]);
      && MayChangePermissions(caller) && u in d.users
      && OnlyUserPermissionsChange(d, r.directory, u)
      && r.directory.users[u].permissions == d.users[u].permissions - Requested(cs, d.known)
      && |r.outcome.entries| == |cs|
      && forall i :: 0 <= i < |cs| ==>
           (r.outcome.entries[i].codename == cs[i] &&
            r.outcome.entries[i].status == RevokeAll(d.users[u].permissions, d.known, cs).1[i])
    ensures WellFormed(d) ==> WellFormed(r.directory)
  {
    if !MayChangePermissions(caller) then Reply(d, Denied)
    else if req.userId.None? || req.userId.value !in d.users then Reply(d, UserNotFound)
    else
      var u := req.userId.value;
      var cs := req.codenames.GetOr([]);
      var user := d.users[u];
      var (perms, sts) := RevokeAll(user.permissions, d.known, cs);
      Reply(d.(users := d.users[u := user.(permissions := perms)]), Results(Entries(cs, sts)))
  }

  /** Direct permissions together with those of the user's groups. */
  function EffectivePermissions(d: Directory, user: User): (s: set<Codename>)
    ensures forall p :: p in s <==>
      p in user.permissions || exists g :: g in user.groups && g in d.groupPermissions && p in d.groupPermissions[g]
  {
    user.permissions + (set g, p | g in user.groups && g in d.groupPermissions && p in d.groupPermissions[g] :: p)
  }

  /** Lists a set without duplicates, in some order (the database's). */
  method Listing(s: set<Codename>) returns (list: seq<Codename>)
    ensures forall p :: p in list <==> p in s
    ensures forall i, j :: 0 <= i < j < |list| ==> list[i] != list[j]
  {
    list := [];
    var rest := s;
    while rest != {}
      invariant rest <= s
      invariant forall p :: p in list <==> p in s && p !in rest
      invariant forall i, j :: 0 <= i < j < |list| ==> list[i] != list[j]
      decreases rest
    {
      var p :| p in rest;
      list := list + [p];
      rest := rest - {p};
    }
  }

  datatype ListOutcome = ListDenied | ListUserNotFound | Permissions(codenames: seq<Codename>)

  /** `UserPermissionsView.get`: the distinct union of the user's direct
      and group permissions. */
  method UserPermissions(d: Directory, caller: Caller, userId: nat) returns (r: ListOutcome)
    ensures !MayViewPermissions(caller) <==> r == ListDenied
    ensures MayViewPermissions(caller) && userId !in d.users <==> r == ListUserNotFound
    ensures r.Permissions? ==>
      && userId in d.users
      && (forall p :: p in r.codenames <==> p in EffectivePermissions(d, d.users[userId]))
      && (forall i, j :: 0 <= i < j < |r.codenames| ==> r.codenames[i] != r.codenames[j])
  {
    if !MayViewPermissions(caller) {
      return ListDenied;
    }
    if userId !in d.users {
      return ListUserNotFound;
    }
    var list := Listing(EffectivePermissions(d, d.users[userId]));
    return Permissions(list);
  }
}

=== FILE: rider_codes.dfy ===
/** Rider codes: two initials from the rider's name followed by eight
    random digits, retried until unused (system/serializers.py). The
    random digits are an input stream `draw`, where `draw(i)` is the i-th
    result of `random.randint(0, 9)`. */
module RiderCodes {
  import opened Basics
  import opened Riders

  // ---------------------------------------------------------------------
  // Words and initials

  /** Python's whitespace, as `str.split()` with no separator uses it. */
  predicate IsSpace(c: char) {
    var n := c as int;
    || (9 <= n <= 13) || (28 <= n <= 32) || n == 0x85 || n == 0xA0 || n == 0x1680
    || (0x2000 <= n <= 0x200A) || n == 0x2028 || n == 0x2029 || n == 0x202F || n == 0x205F || n == 0x3000
  }

  predicate IsWord(w: string) {
    |w| > 0 && forall i :: 0 <= i < |w| ==> !IsSpace(w[i])
  }

  /** Length of the run of non-whitespace characters that starts s. */
  function WordLength(s: string): (n: nat)
    ensures n <= |s|
    ensures forall i :: 0 <= i < n ==> !IsSpace(s[i])
    ensures n == |s| || IsSpace(s[n])
    decreases |s|
  {
    if |s| == 0 || IsSpace(s[0]) then 0 else 1 + WordLength(s[1..])
  }

  /** `name.split()`: the maximal runs of non-whitespace characters. */
  function Words(s: string): (ws: seq<string>)
    ensures forall k :: 0 <= k < |ws| ==> IsWord(ws[k])
    decreases |s|
  {
    if |s| == 0 then []
    else if IsSpace(s[0]) then Words(s[1..])
    else
      var n := WordLength(s);
      [s[..n]] + Words(s[n..])
  }

  /** The characters that begin a word: non-whitespace characters at the
      start of the text or right after whitespace. An independent reading
      of the first letters of `name.split()`. */
  function WordStarts(s: string, afterSpace: bool): string
    decreases |s|
  {
    if |s| == 0 then ""
    else (if afterSpace && !IsSpace(s[0]) then [s[0]] else "") + WordStarts(s[1..], IsSpace(s[0]))
  }

  function Firsts(ws: seq<string>): string
    requires forall k :: 0 <= k < |ws| ==> IsWord(ws[k])
  {
    seq(|ws|, k requires 0 <= k < |ws| && IsWord(ws[k]) => ws[k][0])
  }

  lemma {:induction false} FirstsOfWords(s: string)
    ensures Firsts(Words(s)) == WordStarts(s, true)
    decreases |s|
  {
    if |s| == 0 {
    } else if IsSpace(s[0]) {
      FirstsOfWords(s[1..]);
    } else {
      var n := WordLength(s);
      var rest := s[n..];
      FirstsOfWords(rest);
      SkipWord(s[1..], n - 1);
      assert s[1..][n - 1..] == rest;
      assert Words(s) == [s[..n]] + Words(rest);
      assert Firsts(Words(s)) == [s[0]] + Firsts(Words(rest));
    }
  }

  /** After the first character of a word, the starts of the rest of the
      text are those of the text after the word. */
  lemma {:induction false} SkipWord(t: string, m: nat)
    requires m <= |t|
    requires forall i :: 0 <= i < m ==> !IsSpace(t[i])
    requires m == |t| || IsSpace(t[m])
    ensures WordStarts(t, false) == WordStarts(t[m..], true)
    decreases m
  {
    if m == 0 {
      if |t| > 0 {
        assert WordStarts(t, false) == WordStarts(t[1..], true);
        assert WordStarts(t, true) == WordStarts(t[1..], true);
      }
    } else {
      assert !IsSpace(t[0]);
      assert WordStarts(t, false) == WordStarts(t[1..], false);
      SkipWord(t[1..], m - 1);
      assert t[1..][m - 1..] == t[m..];
    }
  }

  /** `str.upper()` on one character; only ASCII letters are mapped. */
  function UpperChar(c: char): char {
    if 'a' <= c <= 'z' then (c as int - 'a' as int + 'A' as int) as char else c
  }

  function Upper(s: string): (u: string)
    ensures |u| == |s|
  {
    seq(|s|, i requires 0 <= i < |s| => UpperChar(s[i]))
  }

  function Take(s: string, n: nat): (t: string)
    ensures |t| == if |s| <= n then |s| else n
  {
    if |s| <= n then s else s[..n]
  }

  /** The initials: upper-cased first letters of the words, at most two. */
  function Initials(name: string): (r: string)
    ensures |r| <= 2
    ensures |r| == if |Words(name)| <= 2 then |Words(name)| else 2
  {
    Take(Upper(Firsts(Words(name))), 2)
  }

  /** The initials are the upper-cased characters that begin a word. */
  lemma InitialsAreWordStarts(name: string)
    ensures Initials(name) == Take(Upper(WordStarts(name, true)), 2)
  {
    FirstsOfWords(name);
  }

  lemma {:induction false} BlankHasNoWords(name: string)
    requires forall i :: 0 <= i < |name| ==> IsSpace(name[i])
    ensures Words(name) == []
    decreases |name|
  {
    if |name| > 0 {
      BlankHasNoWords(name[1..]);
    }
  }

  /** A name with no words, such as "" or "  ", gives no initials. */
  lemma BlankNameHasNoInitials(name: string)
    requires forall i :: 0 <= i < |name| ==> IsSpace(name[i])
    ensures Initials(name) == ""
  {
    BlankHasNoWords(name);
  }

  // ---------------------------------------------------------------------
  // Code generation

  const NumberLength: nat := 8

  /** The eight digits drawn on the given attempt. */
  function RandomNumber(draw: nat -> Digit, attempt: nat): (s: string)
    ensures |s| == NumberLength && AllDigits(s)
    ensures forall i :: 0 <= i < NumberLength ==> DigitValue(s[i]) == draw(NumberLength * attempt + i)
  {
    DigitString(seq(NumberLength, i requires 0 <= i < NumberLength => draw(NumberLength * attempt + i)))
  }

  function Candidate(initials: string, draw: nat -> Digit, attempt: nat): string {
    initials + RandomNumber(draw, attempt)
  }

  /** The shape of every rider code: the initials, then eight digits. */
  predicate IsRiderCode(code: string, initials: string) {
    && |code| == |initials| + NumberLength
    && code[..|initials|] == initials
    && AllDigits(code[|initials|..])
  }

  /** `generate_unique_code`: the first candidate not in use. The source
      retries forever; here at most `attempts` candidates are drawn and
      `None` reports that all of them were taken. */
  method GenerateUniqueCode(name: string, inUse: set<string>, draw: nat -> Digit, attempts: nat)
    returns (code: Option<string>)
    ensures code.Some? ==> code.value !in inUse
    ensures code.Some? ==> IsRiderCode(code.value, Initials(name)) && |code.value| <= 10
    ensures code.Some? ==> exists k :: 0 <= k < attempts && code.value == Candidate(Initials(name), draw, k)
                                       && forall j :: 0 <= j < k ==> Candidate(Initials(name), draw, j) in inUse
    ensures code.None? <==> forall k :: 0 <= k < attempts ==> Candidate(Initials(name), draw, k) in inUse
  {
    var initials := Initials(name);
    var k := 0;
    while k < attempts
      invariant 0 <= k <= attempts
      invariant forall j :: 0 <= j < k ==> Candidate(initials, draw, j) in inUse
    {
      var candidate := initials + RandomNumber(draw, k);
      if candidate !in inUse {
        assert candidate[..|initials|] == initials;
        assert candidate[|initials|..] == RandomNumber(draw, k);
        assert candidate == Candidate(initials, draw, k);
        return Some(candidate);
      }
      k := k + 1;
    }
    return None;
  }

  // ---------------------------------------------------------------------
  // Creating a rider

  /** The `name` entry of the validated data: left out, explicitly null,
      or a text. The serializer admits all three, since the column is
      nullable and may be blank. */
  datatype NameField = Missing | Null | Given(text: string)

  datatype RiderData = RiderData(
    name: NameField,
    phoneNumber: Option<string>,
    address: Option<string>,
    code: Option<string>,
    nid: Option<string>)

  datatype CreateError =
    | NameNotText      // `None.split()` raises
    | CodesExhausted   // every drawn candidate was taken
    | Duplicate        // a unique column clashes on insert

  /** The name as stored on the row. */
  function StoredName(f: NameField): Option<string> {
    if f.Given? then Some(f.text) else None
  }

  /** `validated_data.get('name', '')` as written: a missing entry gives
      '', but an explicit null comes back as `None`, on which the code
      generator's `split()` fails. */
  function NameForCodeAsWritten(f: NameField): (r: Result<string, CreateError>)
    ensures r.Err? <==> f.Null?
    ensures f.Missing? ==> r == Ok("")
  {
    match f
    case Missing => Ok("")
    case Null => Err(NameNotText)
    case Given(s) => Ok(s)
  }

  /** The evidently intended reading: no name at all, whether left out or
      null, is the empty name. */
  function NameForCode(f: NameField): (r: string)
    ensures f.Given? ==> r == f.text
    ensures !f.Given? ==> r == "" && Initials(r) == ""
  {
    if f.Given? then f.text else ""
  }

  /** The discrepancy: valid data with a null name makes the code
      generator fail as written, while the corrected reading gives a code
      with no initials. */
  lemma NullNameDiscrepancy()
    ensures NameForCodeAsWritten(Null) == Err(NameNotText)
    ensures NameForCode(Null) == "" && Initials(NameForCode(Null)) == ""
    ensures forall f :: f != Null ==> NameForCodeAsWritten(f) == Ok(NameForCode(f))
  {
  }

  predicate PhoneOrNidClash(riders: seq<Rider>, data: RiderData) {
    exists i :: 0 <= i < |riders| && (
      || (data.phoneNumber.Some? && riders[i].phoneNumber == data.phoneNumber)
      || (data.nid.Some? && riders[i].nid == data.nid))
  }

  /** Every candidate code drawn for the rider is already taken. */
  predicate Exhausted(riders: seq<Rider>, data: RiderData, draw: nat -> Digit, attempts: nat) {
    forall k :: 0 <= k < attempts ==> Candidate(Initials(NameForCode(data.name)), draw, k) in CodesInUse(riders)
  }

  /** `RiderSerializer.create`: any supplied code is replaced by a freshly
      generated one, and the row is inserted under the uniqueness
      constraints. */
  method Create(riders: seq<Rider>, data: RiderData, draw: nat -> Digit, attempts: nat)
    returns (r: Result<(seq<Rider>, Rider), CreateError>)
    ensures r.Ok? ==> var (table, row) := r.value;
      && table == riders + [row]
      && row == Rider(StoredName(data.name), data.phoneNumber, data.address, row.code, data.nid)
      && row.code.Some? && row.code.value !in CodesInUse(riders)
      && IsRiderCode(row.code.value, Initials(NameForCode(data.name)))
    ensures r.Ok? ==> exists k :: 0 <= k < attempts
                                  && r.value.1.code == Some(Candidate(Initials(NameForCode(data.name)), draw, k))
                                  && forall j :: 0 <= j < k ==> Candidate(Initials(NameForCode(data.name)), draw, j) in CodesInUse(riders)
    ensures r.Ok? && UniqueWhenPresent(riders) ==> UniqueWhenPresent(r.value.0)
    ensures r == Err(CodesExhausted) <==> Exhausted(riders, data, draw, attempts)
    ensures r == Err(Duplicate) <==> !Exhausted(riders, data, draw, attempts) && PhoneOrNidClash(riders, data)
    ensures r != Err(NameNotText)
  {
    var name := NameForCode(data.name);
    var code := GenerateUniqueCode(name, CodesInUse(riders), draw, attempts);
    if code.None? {
      return Err(CodesExhausted);
    }
    var row := Rider(StoredName(data.name), data.phoneNumber, data.address, code, data.nid);
    var inserted := Insert(riders, row);
    if inserted.Err? {
      assert PhoneOrNidClash(riders, data) by {
        var i :| 0 <= i < |riders| && (
          || (row.phoneNumber.Some? && riders[i].phoneNumber == row.phoneNumber)
          || (row.code.Some? && riders[i].code == row.code)
          || (row.nid.Some? && riders[i].nid == row.nid));
        assert riders[i].code != row.code;
      }
      return Err(Duplicate);
    }
    return Ok((inserted.value, row));
  }

  /** `RiderSerializer.create` as written: a null name makes it fail with
      `NameNotText`; any other name gives the outcomes of `Create`. */
  method CreateAsWritten(riders: seq<Rider>, data: RiderData, draw: nat -> Digit, attempts: nat)
    returns (r: Result<(seq<Rider>, Rider), CreateError>)
    ensures r == Err(NameNotText) <==> data.name.Null?
    ensures r.Ok? ==> var (table, row) := r.value;
      && table == riders + [row]
      && row == Rider(StoredName(data.name), data.phoneNumber, data.address, row.code, data.nid)
      && row.code.Some? && row.code.value !in CodesInUse(riders)
      && IsRiderCode(row.code.value, Initials(NameForCode(data.name)))
    ensures r.Ok? ==> exists k :: 0 <= k < attempts
                                  && r.value.1.code == Some(Candidate(Initials(NameForCode(data.name)), draw, k))
                                  && forall j :: 0 <= j < k ==> Candidate(Initials(NameForCode(data.name)), draw, j) in CodesInUse(riders)
    ensures r.Ok? && UniqueWhenPresent(riders) ==> UniqueWhenPresent(r.value.0)
    ensures !data.name.Null? ==>
      && (r == Err(CodesExhausted) <==> Exhausted(riders, data, draw, attempts))
      && (r == Err(Duplicate) <==> !Exhausted(riders, data, draw, attempts) && PhoneOrNidClash(riders, data))
  {
    var name := NameForCodeAsWritten(data.name);
    if name.Err? {
      return Err(name.error);
    }
    r := Create(riders, data, draw, attempts);
  }
}

=== FILE: riders.dfy ===
/** The rider record, its uniqueness constraints and the storage path of
    its photo (system/models.py). */
module Riders {
  import opened Basics

  /** A rider row. Every text column is nullable. */
  datatype Rider = Rider(
    name: Option<string>,
    phoneNumber: Option<string>,
    address: Option<string>,
    code: Option<string>,
    nid: Option<string>)

  /** The phone number, code and nid columns are each unique; several
      riders may leave one empty, since NULLs never clash. */
  predicate UniqueWhenPresent(riders: seq<Rider>) {
    forall i, j :: 0 <= i < j < |riders| ==>
      && (riders[i].phoneNumber.Some? ==> riders[i].phoneNumber != riders[j].phoneNumber)
      && (riders[i].code.Some? ==> riders[i].code != riders[j].code)
      && (riders[i].nid.Some? ==> riders[i].nid != riders[j].nid)
  }

  /** The new row would clash with an existing one on a unique column. */
  predicate Clashes(riders: seq<Rider>, r: Rider) {
    exists i :: 0 <= i < |riders| && (
      || (r.phoneNumber.Some? && riders[i].phoneNumber == r.phoneNumber)
      || (r.code.Some? && riders[i].code == r.code)
      || (r.nid.Some? && riders[i].nid == r.nid))
  }

  datatype IntegrityError = DuplicateKey

  /** Inserting a rider row: refused exactly when a unique column clashes,
      so the constraints keep holding. */
  function Insert(riders: seq<Rider>, r: Rider): (res: Result<seq<Rider>, IntegrityError>)
    ensures res.Err? <==> Clashes(riders, r)
    ensures res.Ok? ==> res.value == riders + [r]
    ensures res.Ok? && UniqueWhenPresent(riders) ==> UniqueWhenPresent(res.value)
  {
    if Clashes(riders, r) then Err(DuplicateKey) else Ok(riders + [r])
  }

  /** The set of codes in use, as the uniqueness query sees them. */
  function CodesInUse(riders: seq<Rider>): (codes: set<string>)
    ensures forall c :: c in codes <==> exists i :: 0 <= i < |riders| && riders[i].code == Some(c)
  {
    set i | 0 <= i < |riders| && riders[i].code.Some? :: riders[i].code.value
  }

  // ---------------------------------------------------------------------
  // os.path.splitext on POSIX paths

  /** Index of the last occurrence of c in s, or -1. */
  function LastIndexOf(s: string, c: char): (r: int)
    ensures -1 <= r < |s|
    ensures r >= 0 ==> s[r] == c
    ensures forall j :: r < j < |s| ==> s[j] != c
    decreases |s|
  {
    if |s| == 0 then -1
    else if s[|s| - 1] == c then |s| - 1
    else LastIndexOf(s[..|s| - 1], c)
  }

  /** The last path component holds a '.' after some other character:
      exactly the paths that have an extension. */
  predicate HasExtension(p: string) {
    exists j, k :: 0 <= j < k < |p| && p[j] != '.' && p[k] == '.' && (forall m :: j <= m < |p| ==> p[m] != '/')
  }

  /** The last path component holds a character other than '.'. */
  predicate NamedStem(root: string) {
    exists j :: 0 <= j < |root| && root[j] != '.' && (forall m :: j <= m < |root| ==> root[m] != '/')
  }

  /** The last '.' of the last path component, when something other than
      a dot comes before it in that component; -1 otherwise. Leading dots
      of a name such as ".bashrc" do not start an extension. */
  function ExtensionStart(p: string): (k: int)
    ensures -1 <= k < |p|
    ensures k >= 0 ==> p[k] == '.'
    ensures k >= 0 ==> forall j :: k < j < |p| ==> p[j] != '.' && p[j] != '/'
    ensures k >= 0 ==> exists j :: 0 <= j < k && p[j] != '.' && forall m :: j <= m < k ==> p[m] != '/'
    ensures k >= 0 <==> HasExtension(p)
  {
    var sep := LastIndexOf(p, '/');
    var dot := LastIndexOf(p, '.');
    assert HasExtension(p) ==> dot > sep && exists j :: sep < j < dot && p[j] != '.' by {
      if HasExtension(p) {
        var j, k :| 0 <= j < k < |p| && p[j] != '.' && p[k] == '.' && (forall m :: j <= m < |p| ==> p[m] != '/');
        assert sep < j < k <= dot;
      }
    }
    if dot > sep && exists j :: sep < j < dot && p[j] != '.' then
      assert HasExtension(p) by {
        var j :| sep < j < dot && p[j] != '.';
        assert forall m :: j <= m < |p| ==> p[m] != '/';
      }
      dot
    else -1
  }

  /** `os.path.splitext`: root and extension, which put back together give
      the path; the extension is empty or a dot followed by neither dots
      nor slashes. */
  function SplitExt(p: string): (r: (string, string))
    ensures r.0 + r.1 == p
    ensures r.1 == "" || (r.1[0] == '.' && forall j :: 1 <= j < |r.1| ==> r.1[j] != '.' && r.1[j] != '/')
    ensures '.' !in p ==> r.1 == ""
    ensures r.1 != "" <==> HasExtension(p)
    ensures r.1 != "" ==> NamedStem(r.0)
  {
    var k := ExtensionStart(p);
    if k < 0 then (p, "")
    else
      ExtensionParts(p, k);
      (p[..k], p[k..])
  }

  /** The two parts of a path cut at its extension's dot. */
  lemma ExtensionParts(p: string, k: int)
    requires 0 <= k < |p| && p[k] == '.'
    requires forall j :: k < j < |p| ==> p[j] != '.' && p[j] != '/'
    requires exists j :: 0 <= j < k && p[j] != '.' && forall m :: j <= m < k ==> p[m] != '/'
    ensures p[..k] + p[k..] == p
    ensures |p[k..]| > 0 && p[k..][0] == '.' && '.' in p
    ensures forall j :: 1 <= j < |p[k..]| ==> p[k..][j] != '.' && p[k..][j] != '/'
    ensures NamedStem(p[..k])
  {
    var j :| 0 <= j < k && p[j] != '.' && forall m :: j <= m < k ==> p[m] != '/';
    var root := p[..k];
    forall m | j <= m < |root|
      ensures root[m] != '/'
    {
      assert root[m] == p[m];
    }
    assert root[j] != '.';
    var ext := p[k..];
    assert ext[0] == p[k] == '.';
    forall i | 1 <= i < |ext|
      ensures ext[i] != '.' && ext[i] != '/'
    {
      assert ext[i] == p[k + i];
    }
  }

  lemma SuffixChar(root: string, ext: string, i: nat)
    requires i < |ext|
    ensures (root + ext)[|root| + i] == ext[i]
  {
  }

  /** The contract of `SplitExt` determines it: any split of the path with
      those properties is the one `SplitExt` returns. */
  lemma SplitExtUnique(p: string, root: string, ext: string)
    requires root + ext == p
    requires ext == "" || (ext[0] == '.' && forall j :: 1 <= j < |ext| ==> ext[j] != '.' && ext[j] != '/')
    requires ext != "" <==> HasExtension(p)
    ensures (root, ext) == SplitExt(p)
  {
    var (root', ext') := SplitExt(p);
    if ext != "" {
      assert ext' != "";
      if |ext| < |ext'| {
        SuffixChar(root', ext', |ext'| - |ext|);
        assert false;
      } else if |ext'| < |ext| {
        SuffixChar(root, ext, |ext| - |ext'|);
        assert false;
      }
      assert ext == p[|root|..] && ext' == p[|root'|..];
      assert root == p[..|root|] && root' == p[..|root'|];
    } else {
      assert root == p;
    }
  }

  lemma SplitExtExamples()
    ensures SplitExt("photo.jpg") == ("photo", ".jpg")
    ensures SplitExt("archive.tar.gz") == ("archive.tar", ".gz")
    ensures SplitExt(".bashrc") == (".bashrc", "")
    ensures SplitExt("README") == ("README", "")
  {
    SplitPhoto();
    SplitArchive();
    SplitDotfile();
    SplitPlain();
  }

  lemma SplitDotfile()
    ensures SplitExt(".bashrc") == (".bashrc", "")
  {
    var c := ".bashrc";
    assert c[0] == '.' && c[1] == 'b' && c[2] == 'a' && c[3] == 's' && c[4] == 'h' && c[5] == 'r' && c[6] == 'c';
    assert LastIndexOf(c, '.') == 0;
  }

  lemma SplitPlain()
    ensures SplitExt("README") == ("README", "")
  {
    var p := "README";
    assert forall j :: 0 <= j < |p| ==> p[j] != '.';
    assert LastIndexOf(p, '.') == -1;
    assert ExtensionStart(p) == -1;
  }

  lemma SplitPhoto()
    ensures SplitExt("photo.jpg") == ("photo", ".jpg")
  {
    var a := "photo.jpg";
    assert a[5] == '.' && a[6] == 'j' && a[7] == 'p' && a[8] == 'g';
    assert LastIndexOf(a, '.') == 5;
    assert forall j :: 0 <= j < |a| ==> a[j] != '/';
    assert LastIndexOf(a, '/') == -1;
    assert a[0] != '.';
    assert ExtensionStart(a) == 5;
    assert a[..5] == "photo" && a[5..] == ".jpg";
  }

  lemma SplitArchive()
    ensures SplitExt("archive.tar.gz") == ("archive.tar", ".gz")
  {
    var b := "archive.tar.gz";
    assert b[11] == '.' && b[12] == 'g' && b[13] == 'z';
    assert LastIndexOf(b, '.') == 11;
    assert forall j :: 0 <= j < |b| ==> b[j] != '/';
    assert LastIndexOf(b, '/') == -1;
    assert b[0] != '.';
    assert ExtensionStart(b) == 11;
    assert b[..11] == "archive.tar" && b[11..] == ".gz";
  }


  /** f-string rendering of a nullable column: a missing value prints as
      "None". */
  function FormatField(v: Option<string>): string {
    if v.Some? then v.value else "None"
  }

  const ImagePrefix: string := "riders/rider_"

  /** `rider_image_path`: `slugify` is the framework's slug function, taken
      as given. */
  function RiderImagePath(rider: Rider, filename: string, slugify: string -> string): (path: string)
    ensures |path| >= |ImagePrefix| && path[..|ImagePrefix|] == ImagePrefix
    ensures var ext := SplitExt(filename).1; |path| >= |ext| && path[|path| - |ext|..] == ext
    ensures var ext := SplitExt(filename).1;
      (|path| >= |ImagePrefix| + |ext| &&
       path[|ImagePrefix|..|path| - |ext|]
         == slugify(FormatField(rider.name)) + "_" + FormatField(rider.phoneNumber) + "_" + FormatField(rider.code))
  {
    var ext := SplitExt(filename).1;
    var middle := slugify(FormatField(rider.name)) + "_" + FormatField(rider.phoneNumber) + "_" + FormatField(rider.code);
    var path := ImagePrefix + middle + ext;
    assert path[..|ImagePrefix|] == ImagePrefix;
    assert path[|path| - |ext|..] == ext;
    assert path[|ImagePrefix|..|path| - |ext|] == middle;
    path
  }

  /** The uploaded name matters only through its extension. */
  lemma ImagePathIgnoresBaseName(rider: Rider, f1: string, f2: string, slugify: string -> string)
    requires SplitExt(f1).1 == SplitExt(f2).1
    ensures RiderImagePath(rider, f1, slugify) == RiderImagePath(rider, f2, slugify)
  {
  }
}

=== FILE: user_wallets.dfy ===
/** One wallet per user, without an audit trail (wallet/models.py). */
module UserWallets {
  import opened Basics

  datatype WalletType = RiderWallet | CommissionerWallet | BossWallet

  /** A wallet row; `user` is a one-to-one link to the owning account. */
  datatype Wallet = Wallet(user: nat, walletType: WalletType, balance: real)

  const OpeningBalance: real := 0.00

  /** `Wallet.credit`: only the balance changes, and it grows by the amount. */
  function Credit(w: Wallet, amount: real): (r: Wallet)
    ensures r.balance == w.balance + amount
    ensures r.user == w.user && r.walletType == w.walletType
  {
    w.(balance := w.balance + amount)
  }

  /** `Wallet.debit`: only the balance changes, and it shrinks by the amount;
      there is no lower bound. */
  function Debit(w: Wallet, amount: real): (r: Wallet)
    ensures r.balance == w.balance - amount
    ensures r.user == w.user && r.walletType == w.walletType
  {
    w.(balance := w.balance - amount)
  }

  /** Credit and debit of the same amount cancel, in either order. */
  lemma CreditDebitCancel(w: Wallet, amount: real)
    ensures Debit(Credit(w, amount), amount) == w
    ensures Credit(Debit(w, amount), amount) == w
  {
  }

  /** Successive credits add up. */
  lemma CreditsCompose(w: Wallet, x: real, y: real)
    ensures Credit(Credit(w, x), y) == Credit(w, x + y)
  {
  }

  /** The wallet table satisfies the one-to-one constraint on `user`. */
  predicate OnePerUser(table: seq<Wallet>) {
    forall i, j :: 0 <= i < j < |table| ==> table[i].user != table[j].user
  }

  predicate HasWallet(table: seq<Wallet>, user: nat) {
    exists i :: 0 <= i < |table| && table[i].user == user
  }

  datatype CreateError = UserAlreadyHasWallet

  /** Inserting a wallet for a user: a new row at 0.00, rejected by the
      one-to-one constraint when the user already has one. */
  function CreateWallet(table: seq<Wallet>, user: nat, walletType: WalletType): (r: Result<seq<Wallet>, CreateError>)
    ensures r.Ok? <==> !HasWallet(table, user)
    ensures r.Ok? ==> r.value == table + [Wallet(user, walletType, OpeningBalance)]
    ensures r.Ok? && OnePerUser(table) ==> OnePerUser(r.value)
  {
    if exists i :: 0 <= i < |table| && table[i].user == user then Err(UserAlreadyHasWallet)
    else Ok(table + [Wallet(user, walletType, OpeningBalance)])
  }

  /** The reverse one-to-one accessor `user.wallet`. */
  function WalletOf(table: seq<Wallet>, user: nat): (r: Option<nat>)
    ensures r.Some? ==> r.value < |table| && table[r.value].user == user
    ensures r.None? <==> !HasWallet(table, user)
    decreases |table|
  {
    if |table| == 0 then None
    else if table[|table| - 1].user == user then Some(|table| - 1)
    else WalletOf(table[..|table| - 1], user)
  }

  /** Under the one-to-one constraint the wallet of a user is unique. */
  lemma WalletOfUnique(table: seq<Wallet>, user: nat, i: nat)
    requires OnePerUser(table)
    requires i < |table| && table[i].user == user
    ensures WalletOf(table, user) == Some(i)
  {
  }
}
